=== FILE: README.md ===
# RapidFTR children: listing view options, record history, export names

A Dafny model of the behaviour the RapidFTR children controller's tests
pin down. RapidFTR is a registry of child-protection records kept in
CouchDB. The model covers four parts:

- **Listing view options** (`view_options.dfy`, `collation.dfy`). The
  caller's role, optional `status`, `order_by` and `page` become the
  arguments of `Child.fetch_paginated(options, page, per_page)`. The
  options hold a view name, an inclusive CouchDB key range
  (`startkey`/`endkey`) and an optional `descending`. Keys are string
  tuples, possibly ending in the `{}` sentinel that collates after every
  string. The model includes that collation order. The main lemma shows
  each listing's key range selects exactly the records in the caller's
  scope: one status, and for a field worker only their own records. The
  created-at order swaps its keys and scans backwards, and it selects the
  same rows.
- **Record history** (`records.dfy`, `changes.dfy`, `history.dfy`,
  `timestamps.dfy`).
  - Creating a record gives it one history entry.
  - A save whose change set is non-empty puts one entry, stamped
    `YYYY-MM-DD HH:MM:SSUTC`, at the front of the log.
  - The change set lists submitted fields whose value changed, plus the
    attachment keys added and deleted.
  - Rotating a photo keeps its attachment key, so it records nothing.
  - Photo attachment keys have the form `photo-<n>-YYYY-MM-DDTHHMMSS`.
  - Both time formats come with parsers and round-trip lemmas.
- **Short-id reconciliation** (`store.dfy`). A create request whose
  unique identifier has the same short id as a stored record updates that
  record instead of adding one. The short id is the identifier's last
  seven characters. An update of an unknown id creates the record under
  that id.
- **Export file name** (`export.dfy`). The name is
  `<short id>_<exporter id>.zip` for one child and
  `<user name>_<exporter id>.zip` otherwise.

The clock is a parameter (`Instant`): it gives the local time for photo
keys and the UTC time for history stamps. The acting user is a parameter
(`Actor`). The random number in a photo key and a generated unique
identifier are parameters as well.

Four choices; the tests settle the first two and leave the others open:

- **Newest history entry first.** New history entries go at the front
  of the log. The flagging test reads `histories.first` (:443) after
  creation has already written one entry (:404).
- **Key-set attachment diff.** Attachments are compared by key only. A
  photo rotation keeps the attachment key, so it records nothing
  (:401-407).
- **Fixed creation entry.** Creation writes one "created" entry whatever
  the fields are. The tests only require one entry after creation (:404).
- **Short id from the end.** The short id is the identifier's last seven
  characters. The only identifier the tests use, "12345671234567"
  (:718-722), gives "1234567" from either end, so no test separates
  last-seven from first-seven; the model takes the last seven.

No test sets `order_by` for an administrator. The model keeps
`by_all_view_name` and swaps the keys for created_at.

## Model

| member | source | states |
|---|---|---|
| `ViewOptions.ParseOrder` | spec/controllers/children_controller_spec.rb:181-191 | a missing `order_by` is the default order, "name" and "created_at" select their orders, and any other value is refused with that value |
| `ViewOptions.BuildOptions` | spec/controllers/children_controller_spec.rb:156-234 | admin uses the name view and a field worker the created-by views (the name view only for "name"); only the created-at order sets `descending` (to true) and has a start key longer than its end key; the keys are the scope prefix and the prefix plus `{}`, swapped for created-at |
| `ViewOptions.Listing` | spec/controllers/children_controller_spec.rb:117-152 | page and per-page are split off the options: page defaults to 1, per-page is 20, status defaults to "all"; an unsupported order is an error |
| `ViewOptions.ListingSelectsScope` | spec/controllers/children_controller_spec.rb:158-191 | for every role, status and order, a string key lies in the scanned range exactly when it starts with the status (and the field worker's user name) |
| `ViewOptions.OrdersAgreeOnRows` | spec/controllers/children_controller_spec.rb:181-191 | the default, name and created-at orders select the same records; only the scan order differs |
| `ViewOptions.AdminListing` | spec/controllers/children_controller_spec.rb:158-162 | admin, any status S: view `by_all_view_name`, keys [S] to [S, {}], no `descending`, page 1, 20 per page |
| `ViewOptions.StatusDefaultsToAll` | spec/controllers/children_controller_spec.rb:171-179 | without `status` every role gets the same call as with status "all". The default comes from the context names; the shared examples still send "all" (:121, :146) |
| `ViewOptions.FieldWorkerDefaultListing` | spec/controllers/children_controller_spec.rb:164-168 | field worker u, status S: view `by_all_view_with_created_by_created_at`, keys [S, u] to [S, u, {}], no `descending`, page 1, 20 per page |
| `ViewOptions.FieldWorkerNameListing` | spec/controllers/children_controller_spec.rb:181-185 | ordering by name uses the created-by name view with the default keys and no `descending` |
| `ViewOptions.FieldWorkerCreatedAtListing` | spec/controllers/children_controller_spec.rb:187-191 | ordering by created_at on page p: keys [S, u, {}] to [S, u], `descending` true, page p |
| `ViewOptions.ListingTestTable` | spec/controllers/children_controller_spec.rb:156-234 | the rows of the listing test table for "fakefieldworker" and the view symbol spelling |
| `Collation.PrefixRange` | spec/controllers/children_controller_spec.rb:158-168 | under CouchDB collation, the range from a string prefix p to p + [{}] holds exactly the string keys extending p |
| `Collation.CompareKey` | spec/controllers/children_controller_spec.rb:158-168 | three-way comparison of view keys, giving -1, 0 or 1; which ranges it orders is stated by `Collation.PrefixRange` and `Collation.CompareKeyFlip` |
| `Collation.CompareKeyFlip` | spec/controllers/children_controller_spec.rb:187-191 | key comparison is antisymmetric: swapping two keys negates their comparison |
| `Timestamps.UtcText` | spec/controllers/children_controller_spec.rb:445 | the history stamp `YYYY-MM-DD HH:MM:SSUTC` is 22 characters; its meaning is given by `Timestamps.UtcTextRoundTrip` and `Timestamps.ParseUtcTextOnlyStamps` |
| `Timestamps.StampText` | spec/controllers/children_controller_spec.rb:383 | the photo-key suffix `YYYY-MM-DDTHHMMSS` is 17 characters; its meaning is given by `Timestamps.StampTextRoundTrip` |
| `Timestamps.ParseUtcText` | spec/controllers/children_controller_spec.rb:445 | any time it returns is a valid one; that it inverts the stamp is given by `Timestamps.UtcTextRoundTrip` and `Timestamps.ParseUtcTextOnlyStamps` |
| `Timestamps.UtcTextRoundTrip` | spec/controllers/children_controller_spec.rb:433-446 | the zero-padded UTC history stamp parses back to the time it was written from |
| `Timestamps.ParseUtcTextOnlyStamps` | spec/controllers/children_controller_spec.rb:445 | any text the stamp parser accepts is exactly the stamp of the time it returns |
| `Timestamps.StampTextRoundTrip` | spec/controllers/children_controller_spec.rb:383 | the photo-key time suffix `YYYY-MM-DDTHHMMSS` parses back to its time |
| `Timestamps.UtcFieldsExample` | spec/controllers/children_controller_spec.rb:445 | the fields of 20 Jan 2010 17:10:32 pad to "2010", "01", "20", "17", "10", "32" |
| `Timestamps.UtcTextExample` | spec/controllers/children_controller_spec.rb:433-446 | 20 Jan 2010 17:10:32 is written "2010-01-20 17:10:32UTC" |
| `Timestamps.StampTextExample` | spec/controllers/children_controller_spec.rb:383 | 17 Jan 2010 14:05:32 gives the photo-key suffix "2010-01-17T140532" |
| `Records.ShortIdOf` | spec/controllers/children_controller_spec.rb:717-722 | the short id has seven characters, or all of a shorter identifier; that they are its tail is given by `Records.ShortIdIsTail` |
| `Records.ShortIdIsTail` | spec/controllers/children_controller_spec.rb:717-722 | the short id is the last seven characters of the unique identifier (all of a shorter one); the tests do not separate this from the first seven |
| `Records.ShortIdExample` | spec/controllers/children_controller_spec.rb:718-722 | identifier "12345671234567" has short id "1234567" |
| `Records.PhotoKey` | spec/controllers/children_controller_spec.rb:381-384 | a photo key starts with "photo-" and has at least 25 characters; its number and upload time are read back in `Records.PhotoKeyParts` |
| `Records.PhotoKeyParts` | spec/controllers/children_controller_spec.rb:381-384 | a photo key starts with "photo-", carries its number in decimal, and its suffix gives back the local upload time |
| `Records.PhotoKeysDistinct` | spec/controllers/children_controller_spec.rb:382 | photos uploaded at different times get different keys |
| `Changes.FieldChanges` | spec/controllers/children_controller_spec.rb:443-444 | a field is in the change set exactly when the new record holds it with a value the old one did not; the entry carries the previous value (absent if none) and the new value |
| `Changes.ReplayFieldChanges` | spec/controllers/children_controller_spec.rb:433-446 | replaying the recorded field changes on the predecessor gives the successor's fields |
| `Changes.KeySetChange` | spec/controllers/children_controller_spec.rb:361 | nothing is recorded exactly when the attachment key sets agree; otherwise the added and deleted keys are disjoint (`Changes.KeySetChangeFaithful` shows they turn the old set into the new) |
| `Changes.KeySetChangeFaithful` | spec/controllers/children_controller_spec.rb:361 | the recorded added and deleted attachment keys are disjoint and turn the old key set into the new one; nothing is recorded when the key sets agree |
| `Changes.KeySetChangeExample` | spec/controllers/children_controller_spec.rb:361 | keys {a, b} becoming {b, c} record added {c}, deleted {a} |
| `Changes.Diff` | spec/controllers/children_controller_spec.rb:401-407 | the change set holds `photo_keys` exactly when the attachment key set changed, and any other entry names a field the successor holds with a new value; emptiness is characterised by `Changes.DiffEmptyIff` |
| `Changes.DiffSelf` | spec/controllers/children_controller_spec.rb:401-407 | a record saved unchanged has an empty change set |
| `Changes.DiffEmptyIff` | spec/controllers/children_controller_spec.rb:401-407 | the change set is empty exactly when every field keeps its value and the attachment key set is unchanged |
| `History.Save` | spec/controllers/children_controller_spec.rb:433-446 | the saved record equals its successor except for the log; the log grows by one entry exactly when the change set is non-empty; the old log is kept behind it; the new entry holds the change set, the actor and a stamp that parses to the UTC time |
| `History.Create` | spec/controllers/children_controller_spec.rb:403-404 | a new record has the given ids, fields and creator, and exactly one history entry: a creation entry by the acting user whose only change is the "child" created marker carrying the entry's own stamp. The uploaded photo, stored under its key, is its only and primary attachment |
| `History.Updated` | spec/controllers/children_controller_spec.rb:371-399 | submitted fields override stored ones and the others are kept; a new photo is added under its key, becomes the primary photo, and earlier photos stay; without a photo nothing but the fields changes |
| `History.Update` | spec/controllers/children_controller_spec.rb:371-399 | an update is the saved `Updated` record, and the earlier log survives unchanged behind any new entry |
| `History.UpdateChangeSetEmpty` | spec/controllers/children_controller_spec.rb:401-407 | an update records nothing exactly when no submitted field changes value and no new photo key appears |
| `History.UpdateChangeSetFields` | spec/controllers/children_controller_spec.rb:443-444 | each changed submitted field is in the change set with its old and new value |
| `History.UpdateHistory` | spec/controllers/children_controller_spec.rb:433-446 | an update adds at most one entry, and adds one exactly when a field changes or a new photo key appears; the entry carries the UTC stamp, the user and every changed field |
| `History.RotatePhoto` | spec/controllers/children_controller_spec.rb:401-407 | rotating the primary photo replaces only its bytes; its content type is kept. Ids, creator, fields, attachment keys, the other attachments and the history log are unchanged |
| `History.FlagUpdateRecorded` | spec/controllers/children_controller_spec.rb:433-446 | flagging a record saved at 17:10:32 UTC on 20 Jan 2010 puts an entry with a `flag` change and stamp "2010-01-20 17:10:32UTC" at the head of the log |
| `History.CreateThenRotate` | spec/controllers/children_controller_spec.rb:401-407 | a created record has one history entry, and still one after rotating its photo |
| `History.FieldAndPhotoUpdate` | spec/controllers/children_controller_spec.rb:371-385 | a field update with a photo taken later gives two attachments, and the new key carries the upload time |
| `History.FieldOnlyUpdate` | spec/controllers/children_controller_spec.rb:387-399 | a field update without a photo sets the submitted fields and keeps the single attachment |
| `Store.FindByShortId` | spec/controllers/children_controller_spec.rb:717-718 | returns the first record with the short id, or absent when none has it |
| `Store.FindById` | spec/controllers/children_controller_spec.rb:409-418 | returns the first record with the id, or absent when none has it |
| `Store.Existing` | spec/controllers/children_controller_spec.rb:717-722 | a submitted unique identifier refers to a stored record with its short id; absent exactly when there is no identifier or no record has that short id |
| `Store.CreateOrUpdate` | spec/controllers/children_controller_spec.rb:728-739 | the store keeps its size exactly when a record with the submitted short id exists. In that case that record is updated and keeps its id. Otherwise the record created from the submitted identifier (or the generated one) under the new id is appended. Other records are untouched, and the written record holds the submitted fields |
| `Store.ReconcileByShortId` | spec/controllers/children_controller_spec.rb:729-739 | resubmitting a record with a stored short id keeps the store's size and the record's id; exactly one record then carries the short id, and it holds the new fields |
| `Store.CreateOrUpdateKeepsShortIdsUnique` | spec/controllers/children_controller_spec.rb:736-737 | creation and reconciliation keep short ids unique across the store |
| `Store.CreatedRecordFound` | spec/controllers/children_controller_spec.rb:729-738 | a newly created record is found by id and by short id, both lookups give the same record, and it holds the submitted fields |
| `Store.PutUpdate` | spec/controllers/children_controller_spec.rb:409-419 | updating a stored id replaces only that record with its update. An unknown id creates a record under that id with a generated unique identifier. Either way the id is then found |
| `Store.PutUpdateKeepsIdsUnique` | spec/controllers/children_controller_spec.rb:409-419 | an update request never leaves two records with the same id |
| `Export.ExportFilename` | spec/controllers/children_controller_spec.rb:631-639 | one child gives `<short id>_<exporter id>.zip`, any other number gives `<user name>_<exporter id>.zip` |
| `Export.ExportFilenameStem` | spec/controllers/children_controller_spec.rb:631-639 | the file name ends in `_<exporter id>.zip` and what precedes that is the short id or the user name |
| `Export.SingleExportNamesDistinct` | spec/controllers/children_controller_spec.rb:631-634 | single-child exports from one exporter share a file name exactly when the children share a short id |
| `Export.ExportFilenameExamples` | spec/controllers/children_controller_spec.rb:631-639 | a child with short id "1234567" exported to photowall gives "1234567_photowall.zip" (the test stubs a longer short id); two children exported to pdf by "test_user" give "test_user_pdf.zip" |

## Left out

- Authorization checks and 403 responses. They are ability-library wiring.
- Export dispatch to the PDF, CSV, photowall and add-on exporters, and encryption of the exported files. These are foreign calls doing rendering and cryptography.
- Log entries written for exports.
- Search: query validation, full-text search and per-user search. The search engine and validator are not part of this model, and the tests give no length bound.
- Photo upload bytes and the image rotation itself. The rotated bytes are a parameter of `History.RotatePhoto`.
- `select_primary_photo` and its error handling.
- Histories sent by mobile clients as a JSON string. Parsing that is a wire-format concern.
- Flash messages, redirects, page names, `reindex`, and `last_updated_by_full_name` / `created_by_full_name`.
- Casting a submitted `flag` to a boolean. Submitted values arrive already typed.
- Executing the scan. `Child.fetch_paginated` and the CouchDB view are not part of this model. The model states which keys a range selects, not how pages are cut from it.
- Converting local time to UTC. The clock supplies both readings.
- Deleting a photo in an update. The model can record deletions but never performs one.
- ViewOptions.BuildOptions: the administrator's `order_by` behaviour is not fixed by the tests. The model reads the name view backwards for created_at, which lists in reverse key order rather than newest first.
- ViewOptions.Listing: takes `page` as an integer of at least 1. It does not model converting the request text to a number, nor pages of 0, negative pages or non-numeric pages.
- ViewOptions.ParseOrder: recognises only "name" and "created_at", the orders the tests use. Any other `order_by` is refused rather than mapped to a view.
- Collation.CompareStr: compares strings by code point, where CouchDB uses ICU collation. The listing lemmas only depend on equal strings comparing equal and on `{}` sorting after every string.
- Timestamps.UtcText: requires a four-digit year. `strftime` would print a wider year past 9999.
- History.RotatePhoto: leaves the record's content unchanged when it has no primary photo.
- Export.ExportFilename: names an export of zero children after the user, like an export of several.

=== FILE: changes.dfy ===
/** The change set a save records: which form fields took a new value,
    and which attachment keys appeared or disappeared. Attachments are
    compared by key only, so replacing the bytes behind an existing key
    (rotating a photo) is not a change. */
module Changes {
  import opened Wrappers
  import opened Records

  /** The `changes` key under which attachment-key changes are recorded. */
  const PhotoKeysField: string := "photo_keys"

  function Lookup(m: map<string, Value>, f: string): Option<Value> {
    if f in m then Some(m[f]) else None
  }

  /** The fields of `next` whose value is not what `prev` held. */
  function FieldChanges(prev: map<string, Value>, next: map<string, Value>): (r: map<string, Change>)
    ensures forall f :: f in r <==> f in next && f != PhotoKeysField && Lookup(prev, f) != Some(next[f])
    ensures forall f :: f in r ==> r[f].FieldChange? && r[f].from == Lookup(prev, f) && r[f].to == next[f]
  {
    map f | f in next && f != PhotoKeysField && Lookup(prev, f) != Some(next[f])
      :: FieldChange(Lookup(prev, f), next[f])
  }

  /** The added/deleted key sets between two attachment key sets; absent
      when both are empty. */
  function KeySetChange(prev: set<string>, next: set<string>): (r: Option<Change>)
    ensures r.None? <==> prev == next
    ensures r.Some? ==> r.value.KeysChange? && r.value.added !! r.value.deleted
  {
    var added := next - prev;
    var deleted := prev - next;
    if added == {} && deleted == {} then None else Some(KeysChange(added, deleted))
  }

  /** The full change set between a record and its successor. */
  function Diff(prev: Child, next: Child): (r: map<string, Change>)
    ensures PhotoKeysField in r <==> prev.attachments.Keys != next.attachments.Keys
    ensures forall f :: f in r && f != PhotoKeysField ==> f in next.fields && Lookup(prev.fields, f) != Some(next.fields[f])
  {
    var fields := FieldChanges(prev.fields, next.fields);
    match KeySetChange(prev.attachments.Keys, next.attachments.Keys)
    case None => fields
    case Some(k) => fields[PhotoKeysField := k]
  }

  /** Applies recorded field changes to the predecessor's fields. */
  function ReplayFields(prev: map<string, Value>, changes: map<string, Change>): map<string, Value> {
    prev + map f | f in changes && changes[f].FieldChange? :: changes[f].to
  }

  /** A history entry's field changes are faithful: replaying them on the
      predecessor gives back exactly the successor's fields (for fields
      the successor holds; others keep their old value). */
  lemma ReplayFieldChanges(prev: map<string, Value>, next: map<string, Value>)
    requires PhotoKeysField !in next
    ensures ReplayFields(prev, FieldChanges(prev, next)) == prev + next
  {
    var r := ReplayFields(prev, FieldChanges(prev, next));
    forall f | f in next
      ensures f in r && r[f] == next[f]
    {
      if Lookup(prev, f) == Some(next[f]) {
        assert f in prev && prev[f] == next[f];
      }
    }
    assert r.Keys == (prev + next).Keys;
  }

  /** The recorded key sets are disjoint and turn the old key set into the
      new one; nothing is recorded exactly when the key sets agree. */
  lemma KeySetChangeFaithful(prev: set<string>, next: set<string>)
    ensures KeySetChange(prev, next).None? <==> prev == next
    ensures KeySetChange(prev, next).Some? ==>
      var k := KeySetChange(prev, next).value;
      k.KeysChange? && k.added !! k.deleted && (prev - k.deleted) + k.added == next
  {
  }

  /** The example of two attachment keys replaced by one: {a, b} to {b, c}. */
  lemma KeySetChangeExample()
    ensures KeySetChange({"a", "b"}, {"b", "c"}) == Some(KeysChange({"c"}, {"a"}))
  {
    assert {"b", "c"} - {"a", "b"} == {"c"};
    assert {"a", "b"} - {"b", "c"} == {"a"};
  }

  /** Saving a record unchanged records nothing. */
  lemma DiffSelf(c: Child)
    ensures Diff(c, c) == map[]
  {
    KeySetChangeFaithful(c.attachments.Keys, c.attachments.Keys);
  }

  /** The change set is empty exactly when every field of the successor
      keeps its value and the attachment key set is unchanged: attachment
      bytes and the primary-photo choice never register. */
  lemma DiffEmptyIff(prev: Child, next: Child)
    ensures Diff(prev, next) == map[] <==>
      && (forall f :: f in next.fields && f != PhotoKeysField ==> Lookup(prev.fields, f) == Some(next.fields[f]))
      && prev.attachments.Keys == next.attachments.Keys
  {
    KeySetChangeFaithful(prev.attachments.Keys, next.attachments.Keys);
    var fields := FieldChanges(prev.fields, next.fields);
    if Diff(prev, next) == map[] {
      assert PhotoKeysField !in Diff(prev, next);
      assert KeySetChange(prev.attachments.Keys, next.attachments.Keys).None?;
      assert Diff(prev, next) == fields;
      forall f | f in next.fields && f != PhotoKeysField
        ensures Lookup(prev.fields, f) == Some(next.fields[f])
      {
        assert f !in fields;
      }
    } else if prev.attachments.Keys == next.attachments.Keys {
      var f :| f in Diff(prev, next);
      assert f in fields;
    }
  }
}

=== FILE: collation.dfy ===
/** CouchDB view-key collation, restricted to the key shapes the children
    listing uses: tuples of strings, possibly ending in the empty object `{}`,
    which collates after every string. Arrays compare element by element,
    and an array that is a proper prefix of another sorts first. Strings are
    compared by code point here (CouchDB itself uses ICU collation for
    strings; the listing only relies on equality and on `{}` sorting last). */
module Collation {

  /** One component of a view key: a string, or the open-high sentinel `{}`. */
  datatype KeyPart = Str(s: string) | OpenHigh

  type Key = seq<KeyPart>

  /** Three-way comparison of strings: -1, 0 or 1. */
  function CompareStr(a: string, b: string): (c: int)
    ensures -1 <= c <= 1
  {
    if |a| == 0 && |b| == 0 then 0
    else if |a| == 0 then -1
    else if |b| == 0 then 1
    else if a[0] < b[0] then -1
    else if a[0] > b[0] then 1
    else CompareStr(a[1..], b[1..])
  }

  function ComparePart(x: KeyPart, y: KeyPart): (c: int)
    ensures -1 <= c <= 1
  {
    match (x, y)
    case (Str(a), Str(b)) => CompareStr(a, b)
    case (Str(_), OpenHigh) => -1
    case (OpenHigh, Str(_)) => 1
    case (OpenHigh, OpenHigh) => 0
  }

  /** Three-way comparison of view keys in collation order. */
  function CompareKey(a: Key, b: Key): (c: int)
    ensures -1 <= c <= 1
  {
    if |a| == 0 && |b| == 0 then 0
    else if |a| == 0 then -1
    else if |b| == 0 then 1
    else if ComparePart(a[0], b[0]) != 0 then ComparePart(a[0], b[0])
    else CompareKey(a[1..], b[1..])
  }

  predicate KeyLe(a: Key, b: Key) {
    CompareKey(a, b) <= 0
  }

  /** True when every component of the key is a string (a document's key
      never contains the sentinel). */
  predicate AllStrings(k: Key) {
    forall i :: 0 <= i < |k| ==> k[i].Str?
  }

  predicate IsPrefix(p: Key, k: Key) {
    |p| <= |k| && k[..|p|] == p
  }

  /** String comparison answers "equal" exactly for equal strings. */
  lemma {:induction false} CompareStrZero(a: string, b: string)
    ensures CompareStr(a, b) == 0 <==> a == b
  {
    if |a| > 0 && |b| > 0 && a[0] == b[0] {
      CompareStrZero(a[1..], b[1..]);
      assert a == [a[0]] + a[1..];
      assert b == [b[0]] + b[1..];
    }
  }

  /** String comparison is antisymmetric. */
  lemma {:induction false} CompareStrFlip(a: string, b: string)
    ensures CompareStr(b, a) == -CompareStr(a, b)
  {
    if |a| > 0 && |b| > 0 && a[0] == b[0] {
      CompareStrFlip(a[1..], b[1..]);
    }
  }

  lemma ComparePartFlip(x: KeyPart, y: KeyPart)
    ensures ComparePart(y, x) == -ComparePart(x, y)
  {
    if x.Str? && y.Str? {
      CompareStrFlip(x.s, y.s);
    }
  }

  /** Key comparison is antisymmetric. */
  lemma {:induction false} CompareKeyFlip(a: Key, b: Key)
    ensures CompareKey(b, a) == -CompareKey(a, b)
  {
    if |a| > 0 && |b| > 0 {
      ComparePartFlip(a[0], b[0]);
      if ComparePart(a[0], b[0]) == 0 {
        CompareKeyFlip(a[1..], b[1..]);
      }
    }
  }

  /** The inclusive range from a string prefix `p` to `p + [{}]` holds
      exactly the string keys that extend `p`: this is why the listing can
      narrow a view to one status (and one creator) with a key range. */
  lemma {:induction false} PrefixRange(p: Key, k: Key)
    requires AllStrings(p) && AllStrings(k)
    ensures KeyLe(p, k) && KeyLe(k, p + [OpenHigh]) <==> IsPrefix(p, k)
  {
    if |p| == 0 {
      assert k[..0] == p;
      if |k| > 0 {
        assert k[0].Str?;
      }
    } else if |k| == 0 {
      assert CompareKey(p, k) == 1;
    } else {
      var q := p + [OpenHigh];
      assert p[0].Str? && k[0].Str?;
      assert q[0] == p[0] && q[1..] == p[1..] + [OpenHigh];
      assert AllStrings(p[1..]) && AllStrings(k[1..]) by {
        forall i | 0 <= i < |p| - 1 ensures p[1..][i].Str? {
          assert p[1..][i] == p[i + 1];
        }
        forall i | 0 <= i < |k| - 1 ensures k[1..][i].Str? {
          assert k[1..][i] == k[i + 1];
        }
      }
      CompareStrZero(p[0].s, k[0].s);
      CompareStrFlip(p[0].s, k[0].s);
      if p[0] == k[0] {
        PrefixRange(p[1..], k[1..]);
        if IsPrefix(p[1..], k[1..]) {
          assert k[..|p|] == [k[0]] + k[1..][..|p| - 1];
          assert p == [p[0]] + p[1..];
        }
        if IsPrefix(p, k) {
          assert k[1..][..|p| - 1] == k[..|p|][1..];
        }
      } else if |p| <= |k| {
        assert k[..|p|][0] == k[0];
      }
    }
  }
}

=== FILE: export.dfy ===
/** The name of the zip file an export is delivered in. */
module Export {
  import opened Records

  /** One child is named by its short id, several by the exporting user;
      the exporter's id and ".zip" follow. */
  function ExportFilename(children: seq<Child>, exporterId: string, currentUserName: string): (name: string)
    ensures |children| == 1 ==> name == ShortId(children[0]) + "_" + exporterId + ".zip"
    ensures |children| != 1 ==> name == currentUserName + "_" + exporterId + ".zip"
  {
    (if |children| == 1 then ShortId(children[0]) else currentUserName) + "_" + exporterId + ".zip"
  }

  /** The part of an export file name before the exporter's suffix. */
  function FilenameStem(name: string, exporterId: string): (stem: string)
    requires |name| >= |exporterId| + 5
  {
    name[..|name| - |exporterId| - 5]
  }

  /** The file name gives back whom it names: the single child's short id,
      or the user for any other number of children. */
  lemma ExportFilenameStem(children: seq<Child>, exporterId: string, currentUserName: string)
    ensures var name := ExportFilename(children, exporterId, currentUserName);
      && |name| >= |exporterId| + 5
      && FilenameStem(name, exporterId) == (if |children| == 1 then ShortId(children[0]) else currentUserName)
      && name[|name| - |exporterId| - 5..] == "_" + exporterId + ".zip"
  {
    var stem := if |children| == 1 then ShortId(children[0]) else currentUserName;
    var name := ExportFilename(children, exporterId, currentUserName);
    assert name == stem + ("_" + exporterId + ".zip");
  }

  /** Single-child exports from one exporter get the same file name
      exactly when the children share a short id. */
  lemma SingleExportNamesDistinct(a: Child, b: Child, exporterId: string, user: string)
    ensures ExportFilename([a], exporterId, user) == ExportFilename([b], exporterId, user)
      <==> ShortId(a) == ShortId(b)
  {
    ExportFilenameStem([a], exporterId, user);
    ExportFilenameStem([b], exporterId, user);
  }

  /** The two file-name shapes of the export tests. The single-child test
      stubs `short_id` directly with a 13-character value, which a seven
      character short id cannot equal, so a short id "1234567" stands in. */
  lemma ExportFilenameExamples(c1: Child, c2: Child)
    requires ShortId(c1) == "1234567"
    ensures ExportFilename([c1], "photowall", "test_user") == "1234567_photowall.zip"
    ensures ExportFilename([c1, c2], "pdf", "test_user") == "test_user_pdf.zip"
  {
  }
}

=== FILE: history.dfy ===
/** Creating and saving child records: every save that changes something
    puts one history entry, stamped with the UTC time, at the front of the
    record's history log; a save that changes nothing leaves the log alone. */
module History {
  import opened Wrappers
  import opened Timestamps
  import opened Records
  import opened Changes

  /** The clock's reading: the same instant in local time (used for photo
      keys) and in UTC (used for history stamps). */
  datatype Instant = Instant(local: DateTime, utc: DateTime)

  predicate ValidInstant(now: Instant) {
    Valid(now.local) && Valid(now.utc)
  }

  /** An uploaded photo and the number its key carries. */
  datatype NewPhoto = NewPhoto(n: nat, attachment: Attachment)

  const CreatedField: string := "child"

  /** Saves `next` as the successor of `prev`: when the two differ, an
      entry holding the change set is put in front of the history log. */
  function Save(prev: Child, next: Child, actor: Actor, now: Instant): (r: Child)
    requires Valid(now.utc)
    ensures r.(histories := next.histories) == next
    ensures |r.histories| == |next.histories| + (if Diff(prev, next) == map[] then 0 else 1)
    ensures r.histories[|r.histories| - |next.histories|..] == next.histories
    ensures |r.histories| > |next.histories| ==>
      && r.histories[0].changes == Diff(prev, next)
      && ParseUtcText(r.histories[0].datetime) == Some(now.utc)
      && r.histories[0].userName == actor.userName
      && r.histories[0].userOrganisation == actor.organisation
  {
    var changes := Diff(prev, next);
    if changes == map[] then next
    else
      UtcTextRoundTrip(now.utc);
      next.(histories := [HistoryEntry(UtcText(now.utc), actor.userName, actor.organisation, changes)] + next.histories)
  }

  /** A new record with the given form fields and, optionally, a photo.
      Its log holds the single creation entry. */
  function Create(id: string, uniqueIdentifier: string, fields: map<string, Value>,
                  photo: Option<NewPhoto>, actor: Actor, now: Instant): (r: Child)
    requires ValidInstant(now)
    ensures r.id == id && r.uniqueIdentifier == uniqueIdentifier
    ensures ShortId(r) == ShortIdOf(uniqueIdentifier)
    ensures r.createdBy == actor.userName
    ensures r.fields == fields
    ensures |r.histories| == 1
    ensures r.histories[0].userName == actor.userName && r.histories[0].userOrganisation == actor.organisation
    ensures r.histories[0].changes == map[CreatedField := Created(r.histories[0].datetime)]
    ensures ParseUtcText(r.histories[0].datetime) == Some(now.utc)
    ensures photo.None? ==> r.attachments == map[] && r.primaryPhotoKey == None
    ensures photo.Some? ==>
      && r.attachments.Keys == {PhotoKey(photo.value.n, now.local)}
      && r.attachments[PhotoKey(photo.value.n, now.local)] == photo.value.attachment
      && r.primaryPhotoKey == Some(PhotoKey(photo.value.n, now.local))
  {
    UtcTextRoundTrip(now.utc);
    var stamp := UtcText(now.utc);
    var entry := HistoryEntry(stamp, actor.userName, actor.organisation, map[CreatedField := Created(stamp)]);
    match photo
    case None =>
      Child(id, uniqueIdentifier, actor.userName, fields, map[], None, [entry])
    case Some(p) =>
      var key := PhotoKey(p.n, now.local);
      Child(id, uniqueIdentifier, actor.userName, fields, map[key := p.attachment], Some(key), [entry])
  }

  /** The record `Update` saves before its history is recorded: the
      submitted fields override the stored ones, and a new photo is added
      under a fresh key and becomes the primary photo. */
  function Updated(c: Child, incoming: map<string, Value>, photo: Option<NewPhoto>, now: Instant): (next: Child)
    requires Valid(now.local)
    ensures next.id == c.id && next.uniqueIdentifier == c.uniqueIdentifier && next.createdBy == c.createdBy
    ensures next.histories == c.histories
    ensures forall f :: f in next.fields <==> f in c.fields || f in incoming
    ensures forall f :: f in incoming ==> next.fields[f] == incoming[f]
    ensures forall f :: f in c.fields && f !in incoming ==> next.fields[f] == c.fields[f]
    ensures photo.None? ==> next == c.(fields := next.fields)
    ensures photo.None? ==> next.attachments == c.attachments
    ensures photo.Some? ==> next.primaryPhotoKey == Some(PhotoKey(photo.value.n, now.local))
    ensures photo.Some? ==>
      && next.attachments.Keys == c.attachments.Keys + {PhotoKey(photo.value.n, now.local)}
      && next.attachments[PhotoKey(photo.value.n, now.local)] == photo.value.attachment
      && (forall k :: k in c.attachments && k != PhotoKey(photo.value.n, now.local) ==>
            next.attachments[k] == c.attachments[k])
  {
    match photo
    case None => c.(fields := c.fields + incoming)
    case Some(p) =>
      var key := PhotoKey(p.n, now.local);
      c.(fields := c.fields + incoming, attachments := c.attachments[key := p.attachment], primaryPhotoKey := Some(key))
  }

  /** Applies the submitted fields and optional new photo to a record and
      saves it. The identifiers never change, earlier photos are kept, and
      the old log is kept unchanged behind any new entry. */
  function Update(c: Child, incoming: map<string, Value>, photo: Option<NewPhoto>, actor: Actor, now: Instant)
    : (r: Child)
    requires ValidInstant(now)
    ensures r.(histories := c.histories) == Updated(c, incoming, photo, now)
    ensures |r.histories| >= |c.histories|
    ensures r.histories[|r.histories| - |c.histories|..] == c.histories
  {
    Save(c, Updated(c, incoming, photo, now), actor, now)
  }

  /** True when a submitted field carries a value the record does not hold. */
  predicate FieldChanged(c: Child, incoming: map<string, Value>, f: string) {
    f in incoming && f != PhotoKeysField && Lookup(c.fields, f) != Some(incoming[f])
  }

  /** The change set of an update is empty exactly when no submitted
      field changes value and no new photo key appears. */
  lemma UpdateChangeSetEmpty(c: Child, incoming: map<string, Value>, photo: Option<NewPhoto>, now: Instant)
    requires Valid(now.local)
    ensures Diff(c, Updated(c, incoming, photo, now)) == map[] <==>
      && (forall f :: !FieldChanged(c, incoming, f))
      && (photo.None? || PhotoKey(photo.value.n, now.local) in c.attachments)
  {
    var next := Updated(c, incoming, photo, now);
    DiffEmptyIff(c, next);
    if exists f :: FieldChanged(c, incoming, f) {
      var f :| FieldChanged(c, incoming, f);
      assert f in next.fields && f != PhotoKeysField && Lookup(c.fields, f) != Some(next.fields[f]);
    } else {
      forall f | f in next.fields && f != PhotoKeysField
        ensures Lookup(c.fields, f) == Some(next.fields[f])
      {
        assert !FieldChanged(c, incoming, f);
      }
    }
  }

  /** Every changed submitted field appears in the update's change set
      with its old and new value. */
  lemma UpdateChangeSetFields(c: Child, incoming: map<string, Value>, photo: Option<NewPhoto>, now: Instant, f: string)
    requires Valid(now.local)
    requires FieldChanged(c, incoming, f)
    ensures f in Diff(c, Updated(c, incoming, photo, now))
    ensures Diff(c, Updated(c, incoming, photo, now))[f] == FieldChange(Lookup(c.fields, f), incoming[f])
  {
    var next := Updated(c, incoming, photo, now);
    assert f in FieldChanges(c.fields, next.fields);
  }

  /** An update adds exactly one history entry when a submitted field
      changes value or a new photo key appears, and none otherwise; the
      entry is stamped with the save's UTC time and records every changed
      field with its old and new value. */
  lemma UpdateHistory(c: Child, incoming: map<string, Value>, photo: Option<NewPhoto>, actor: Actor, now: Instant)
    requires ValidInstant(now)
    ensures var r := Update(c, incoming, photo, actor, now);
      && |r.histories| <= |c.histories| + 1
      && (|r.histories| == |c.histories| + 1 <==>
           || (exists f :: FieldChanged(c, incoming, f))
           || (photo.Some? && PhotoKey(photo.value.n, now.local) !in c.attachments))
    ensures var r := Update(c, incoming, photo, actor, now);
      |r.histories| == |c.histories| + 1 ==>
        && ParseUtcText(r.histories[0].datetime) == Some(now.utc)
        && r.histories[0].userName == actor.userName
        && (forall f :: FieldChanged(c, incoming, f) ==>
              f in r.histories[0].changes && r.histories[0].changes[f] == FieldChange(Lookup(c.fields, f), incoming[f]))
  {
    UpdateChangeSetEmpty(c, incoming, photo, now);
    forall f | FieldChanged(c, incoming, f)
      ensures f in Diff(c, Updated(c, incoming, photo, now))
      ensures Diff(c, Updated(c, incoming, photo, now))[f] == FieldChange(Lookup(c.fields, f), incoming[f])
    {
      UpdateChangeSetFields(c, incoming, photo, now, f);
    }
  }

  /** Rotating the primary photo replaces the bytes behind its key and
      saves the record; the key is unchanged, so the log does not grow. */
  function RotatePhoto(c: Child, rotated: seq<Byte>, actor: Actor, now: Instant): (r: Child)
    requires ValidInstant(now)
    ensures r == c.(attachments := r.attachments)
    ensures r.histories == c.histories
    ensures r.fields == c.fields && r.attachments.Keys == c.attachments.Keys
    ensures r.primaryPhotoKey == c.primaryPhotoKey
    ensures forall k :: k in c.attachments && Some(k) != c.primaryPhotoKey ==> r.attachments[k] == c.attachments[k]
    ensures c.primaryPhotoKey.Some? && c.primaryPhotoKey.value in c.attachments ==>
      r.attachments[c.primaryPhotoKey.value] == c.attachments[c.primaryPhotoKey.value].(data := rotated)
  {
    var next :=
      match c.primaryPhotoKey
      case Some(k) =>
        if k in c.attachments then c.(attachments := c.attachments[k := c.attachments[k].(data := rotated)])
        else c
      case None => c;
    DiffEmptyIff(c, next);
    Save(c, next, actor, now)
  }

  /** Flagging a record puts a `flag` change at the head of its log,
      stamped with the UTC time of the save. */
  lemma FlagUpdateRecorded(c: Child, message: string, actor: Actor, local: DateTime)
    requires Valid(local)
    requires Lookup(c.fields, "flag") != Some(Bool(true))
    ensures var r := Update(c, map["flag" := Bool(true), "flag_message" := Text(message)], None, actor,
                            Instant(local, DateTime(2010, 1, 20, 17, 10, 32)));
      && |r.histories| == |c.histories| + 1
      && "flag" in r.histories[0].changes
      && r.histories[0].datetime == "2010-01-20 17:10:32UTC"
  {
    var utc := DateTime(2010, 1, 20, 17, 10, 32);
    var incoming := map["flag" := Bool(true), "flag_message" := Text(message)];
    var r := Update(c, incoming, None, actor, Instant(local, utc));
    assert FieldChanged(c, incoming, "flag");
    UpdateHistory(c, incoming, None, actor, Instant(local, utc));
    ParseUtcTextOnlyStamps(r.histories[0].datetime);
    UtcTextExample();
  }

  /** A new record has one history entry, and rotating its photo adds none. */
  lemma CreateThenRotate(id: string, uid: string, fields: map<string, Value>, p: NewPhoto,
                         rotated: seq<Byte>, actor: Actor, t0: Instant, t1: Instant)
    requires ValidInstant(t0) && ValidInstant(t1)
    ensures var c := Create(id, uid, fields, Some(p), actor, t0);
      && |c.histories| == 1
      && |RotatePhoto(c, rotated, actor, t1).histories| == 1
  {
  }

  /** Updating a field together with a new photo taken at a later time
      keeps the earlier photo and adds the new one, whose key carries the
      upload time. */
  lemma FieldAndPhotoUpdate(id: string, uid: string, p0: NewPhoto, p1: NewPhoto, actor: Actor,
                            t0: Instant, t1: Instant)
    requires ValidInstant(t0) && ValidInstant(t1) && t0.local != t1.local
    ensures var c := Create(id, uid, map["last_known_location" := Text("London")], Some(p0), actor, t0);
      var r := Update(c, map["last_known_location" := Text("Manchester")], Some(p1), actor, t1);
      && r.fields["last_known_location"] == Text("Manchester")
      && |r.attachments| == 2
      && PhotoKey(p1.n, t1.local) in r.attachments
      && PhotoKeyTime(PhotoKey(p1.n, t1.local)) == Some(t1.local)
  {
    var k0 := PhotoKey(p0.n, t0.local);
    var k1 := PhotoKey(p1.n, t1.local);
    PhotoKeysDistinct(p0.n, p1.n, t0.local, t1.local);
    PhotoKeyParts(p1.n, t1.local);
    var c := Create(id, uid, map["last_known_location" := Text("London")], Some(p0), actor, t0);
    var incoming := map["last_known_location" := Text("Manchester")];
    var next := Updated(c, incoming, Some(p1), t1);
    assert next.attachments.Keys == {k0, k1};
    assert |{k0, k1}| == 2;
    assert |next.attachments| == |next.attachments.Keys|;
  }

  /** Updating fields without a photo leaves the attachments as they were. */
  lemma FieldOnlyUpdate(id: string, uid: string, p0: NewPhoto, actor: Actor, t0: Instant, t1: Instant)
    requires ValidInstant(t0) && ValidInstant(t1)
    ensures var c := Create(id, uid, map["last_known_location" := Text("London")], Some(p0), actor, t0);
      var s := Update(c, map["last_known_location" := Text("Manchester"), "age" := Text("7")], None, actor, t1);
      && s.fields["last_known_location"] == Text("Manchester")
      && s.fields["age"] == Text("7")
      && |s.attachments| == 1
  {
    var c := Create(id, uid, map["last_known_location" := Text("London")], Some(p0), actor, t0);
    var incoming := map["last_known_location" := Text("Manchester"), "age" := Text("7")];
    var next := Updated(c, incoming, None, t1);
    assert next.attachments == c.attachments;
    assert "last_known_location" in incoming && "age" in incoming;
    assert |c.attachments| == |c.attachments.Keys| == 1;
  }
}

=== FILE: records.dfy ===
/** A child record as stored in CouchDB: its form fields, its photo
    attachments and its history log, plus the identifiers fixed at
    creation. */
module Records {
  import opened Wrappers
  import opened Timestamps

  /** A form field's value (text fields, and booleans such as `flag`). */
  datatype Value = Text(text: string) | Bool(b: bool)

  type Byte = x: int | 0 <= x < 256

  datatype Attachment = Attachment(data: seq<Byte>, contentType: string)

  /** One field's entry in a history's `changes`: a field moved from an
      optional old value to a new one, a set of attachment keys was added
      and deleted, or the record was created (at the given stamp). */
  datatype Change =
    | FieldChange(from: Option<Value>, to: Value)
    | KeysChange(added: set<string>, deleted: set<string>)
    | Created(at: string)

  datatype HistoryEntry = HistoryEntry(
    datetime: string,
    userName: string,
    userOrganisation: string,
    changes: map<string, Change>)

  /** The user on whose behalf a record is written. */
  datatype Actor = Actor(userName: string, organisation: string)

  /** `histories` holds the newest entry first. `primaryPhotoKey` is the
      attachment key of the photo currently shown for the child. */
  datatype Child = Child(
    id: string,
    uniqueIdentifier: string,
    createdBy: string,
    fields: map<string, Value>,
    attachments: map<string, Attachment>,
    primaryPhotoKey: Option<string>,
    histories: seq<HistoryEntry>)

  const ShortIdLength: nat := 7

  /** The short id shown to users: the last seven characters of the unique
      identifier, or all of it when it is shorter. */
  function ShortIdOf(uniqueIdentifier: string): (r: string)
    ensures |r| == if |uniqueIdentifier| < ShortIdLength then |uniqueIdentifier| else ShortIdLength
  {
    if |uniqueIdentifier| <= ShortIdLength then uniqueIdentifier
    else uniqueIdentifier[|uniqueIdentifier| - ShortIdLength..]
  }

  /** The short id is the identifier's tail of seven characters (all of a
      shorter identifier), and identifiers ending alike share it. */
  lemma ShortIdIsTail(u: string, v: string)
    ensures var r := ShortIdOf(u);
      && |r| == (if |u| < ShortIdLength then |u| else ShortIdLength)
      && u[|u| - |r|..] == r
    ensures |u| >= ShortIdLength && |v| >= ShortIdLength ==>
      (ShortIdOf(u) == ShortIdOf(v) <==> u[|u| - ShortIdLength..] == v[|v| - ShortIdLength..])
  {
  }

  function ShortId(c: Child): string {
    ShortIdOf(c.uniqueIdentifier)
  }

  /** The unique identifier of the synchronisation test names short id
      "1234567". */
  lemma ShortIdExample()
    ensures ShortIdOf("12345671234567") == "1234567"
  {
  }

  /** The attachment key of a photo: the role token, a number, then the
      local time of the upload, e.g. "photo-671592136-2013-02-01T101929". */
  function PhotoKey(n: nat, local: DateTime): (k: string)
    requires Valid(local)
    ensures |k| >= 25 && k[..6] == "photo-"
  {
    "photo-" + Decimal(n) + "-" + StampText(local)
  }

  /** The upload time a photo key carries, read from its last 18 characters. */
  function PhotoKeyTime(k: string): Option<DateTime> {
    if |k| >= 18 && k[|k| - 18] == '-' then ParseStamp(k[|k| - 17..]) else None
  }

  /** A photo key starts with the role token, carries its number in
      decimal, and gives back its upload time, so the newest photo can be
      picked out by matching the key. */
  lemma PhotoKeyParts(n: nat, local: DateTime)
    requires Valid(local)
    ensures PhotoKey(n, local)[..6] == "photo-"
    ensures var k := PhotoKey(n, local);
      && |k| >= 25
      && AllDigits(k[6..|k| - 18])
      && ParseDigits(k[6..|k| - 18]) == n
    ensures PhotoKeyTime(PhotoKey(n, local)) == Some(local)
  {
    var k := PhotoKey(n, local);
    assert k[6..|k| - 18] == Decimal(n);
    ParseDecimal(n);
    assert k[|k| - 17..] == StampText(local);
    assert k[|k| - 18] == '-';
    StampTextRoundTrip(local);
  }

  /** Photo keys taken at different times differ. */
  lemma PhotoKeysDistinct(n: nat, m: nat, t: DateTime, u: DateTime)
    requires Valid(t) && Valid(u) && t != u
    ensures PhotoKey(n, t) != PhotoKey(m, u)
  {
    PhotoKeyParts(n, t);
    PhotoKeyParts(m, u);
  }
}

=== FILE: store.dfy ===
/** The child records in the database, looked up by id and by short id,
    and the create and update requests that reconcile a resubmitted record
    with the one already stored. */
module Store {
  import opened Wrappers
  import opened Records
  import opened History

  /** The stored records, in the order the views return them. */
  type Store = seq<Child>

  /** No two stored records share a short id. */
  predicate UniqueShortIds(s: Store) {
    forall i, j :: 0 <= i < j < |s| ==> ShortId(s[i]) != ShortId(s[j])
  }

  /** No two stored records share an id. */
  predicate UniqueIds(s: Store) {
    forall i, j :: 0 <= i < j < |s| ==> s[i].id != s[j].id
  }

  /** The position of the first record with the given short id. */
  function FindByShortId(s: Store, shortId: string): (r: Option<nat>)
    ensures r.Some? ==> r.value < |s| && ShortId(s[r.value]) == shortId
    ensures r.Some? ==> forall j :: 0 <= j < r.value ==> ShortId(s[j]) != shortId
    ensures r.None? ==> forall j :: 0 <= j < |s| ==> ShortId(s[j]) != shortId
  {
    if |s| == 0 then None
    else if ShortId(s[0]) == shortId then Some(0)
    else match FindByShortId(s[1..], shortId)
      case None => None
      case Some(i) => Some(i + 1)
  }

  /** The position of the first record with the given id. */
  function FindById(s: Store, id: string): (r: Option<nat>)
    ensures r.Some? ==> r.value < |s| && s[r.value].id == id
    ensures r.Some? ==> forall j :: 0 <= j < r.value ==> s[j].id != id
    ensures r.None? ==> forall j :: 0 <= j < |s| ==> s[j].id != id
  {
    if |s| == 0 then None
    else if s[0].id == id then Some(0)
    else match FindById(s[1..], id)
      case None => None
      case Some(i) => Some(i + 1)
  }

  function GetById(s: Store, id: string): Option<Child> {
    match FindById(s, id)
    case None => None
    case Some(i) => Some(s[i])
  }

  function GetByShortId(s: Store, shortId: string): Option<Child> {
    match FindByShortId(s, shortId)
    case None => None
    case Some(i) => Some(s[i])
  }

  /** How many stored records carry the short id. */
  function CountShortId(s: Store, shortId: string): nat {
    if |s| == 0 then 0
    else CountShortId(s[..|s| - 1], shortId) + (if ShortId(s[|s| - 1]) == shortId then 1 else 0)
  }

  lemma {:induction false} CountNone(s: Store, shortId: string)
    requires forall j :: 0 <= j < |s| ==> ShortId(s[j]) != shortId
    ensures CountShortId(s, shortId) == 0
  {
    if |s| > 0 {
      CountNone(s[..|s| - 1], shortId);
    }
  }

  /** A short id held by exactly one position is counted once. */
  lemma {:induction false} CountOne(s: Store, shortId: string, i: nat)
    requires i < |s| && ShortId(s[i]) == shortId
    requires forall j :: 0 <= j < |s| && j != i ==> ShortId(s[j]) != shortId
    ensures CountShortId(s, shortId) == 1
  {
    var init := s[..|s| - 1];
    if i == |s| - 1 {
      CountNone(init, shortId);
    } else {
      CountOne(init, shortId, i);
    }
  }

  /** The stored record a submitted unique identifier refers to, by its
      short id. */
  function Existing(s: Store, uniqueIdentifier: Option<string>): (r: Option<nat>)
    ensures r.Some? ==> r.value < |s|
    ensures r.Some? ==> uniqueIdentifier.Some? && ShortId(s[r.value]) == ShortIdOf(uniqueIdentifier.value)
    ensures r.None? ==>
      uniqueIdentifier.None? || forall j :: 0 <= j < |s| ==> ShortId(s[j]) != ShortIdOf(uniqueIdentifier.value)
  {
    match uniqueIdentifier
    case None => None
    case Some(u) => FindByShortId(s, ShortIdOf(u))
  }

  /** A create request. When it carries a unique identifier whose short id
      is already stored, the stored record is updated with the submitted
      fields instead; otherwise a new record is added under `newId`, with
      the submitted identifier or else `generatedUid`. Returns the store
      and the position of the record written. */
  function CreateOrUpdate(s: Store, fields: map<string, Value>, uniqueIdentifier: Option<string>,
                          photo: Option<NewPhoto>, newId: string, generatedUid: string,
                          actor: Actor, now: Instant): (r: (Store, nat))
    requires ValidInstant(now)
    ensures r.1 < |r.0|
    ensures |r.0| == |s| || (|r.0| == |s| + 1 && r.1 == |s|)
    ensures forall j :: 0 <= j < |s| && j != r.1 ==> r.0[j] == s[j]
    ensures |r.0| == |s| <==> Existing(s, uniqueIdentifier).Some?
    ensures forall f :: f in fields ==> f in r.0[r.1].fields && r.0[r.1].fields[f] == fields[f]
    ensures Existing(s, uniqueIdentifier).Some? ==>
      && r.1 == Existing(s, uniqueIdentifier).value
      && r.0[r.1] == Update(s[r.1], fields, photo, actor, now)
      && r.0[r.1].id == s[r.1].id
    ensures Existing(s, uniqueIdentifier).None? ==>
      r.0 == s + [Create(newId, uniqueIdentifier.GetOr(generatedUid), fields, photo, actor, now)]
  {
    match Existing(s, uniqueIdentifier)
    case Some(i) =>
      var u := Update(s[i], fields, photo, actor, now);
      assert u.fields == Updated(s[i], fields, photo, now).fields;
      (s[i := u], i)
    case None =>
      var c := Create(newId, uniqueIdentifier.GetOr(generatedUid), fields, photo, actor, now);
      assert (s + [c])[|s|] == c;
      (s + [c], |s|)
  }

  /** Submitting a record whose short id is already stored updates that
      record: the store keeps its size, exactly one record carries the
      short id, and it holds the submitted fields. */
  lemma ReconcileByShortId(s: Store, fields: map<string, Value>, uid: string, photo: Option<NewPhoto>,
                           newId: string, generatedUid: string, actor: Actor, now: Instant)
    requires ValidInstant(now)
    requires UniqueShortIds(s)
    requires FindByShortId(s, ShortIdOf(uid)).Some?
    ensures var r := CreateOrUpdate(s, fields, Some(uid), photo, newId, generatedUid, actor, now);
      && |r.0| == |s|
      && r.0[r.1].id == s[r.1].id
      && CountShortId(r.0, ShortIdOf(uid)) == 1
      && GetByShortId(r.0, ShortIdOf(uid)).Some?
      && forall f :: f in fields ==>
           f in GetByShortId(r.0, ShortIdOf(uid)).value.fields && GetByShortId(r.0, ShortIdOf(uid)).value.fields[f] == fields[f]
  {
    var sid := ShortIdOf(uid);
    var i := FindByShortId(s, sid).value;
    assert Existing(s, Some(uid)) == Some(i);
    var r := CreateOrUpdate(s, fields, Some(uid), photo, newId, generatedUid, actor, now);
    var u := r.0[i];
    assert u.uniqueIdentifier == s[i].uniqueIdentifier;
    assert r.0 == s[i := u];
    ReplaceKeepsShortIdSole(s, i, u);
  }

  /** Replacing a record by one with the same short id, in a store whose
      short ids are unique, leaves that short id on that position alone. */
  lemma ReplaceKeepsShortIdSole(s: Store, i: nat, u: Child)
    requires UniqueShortIds(s)
    requires i < |s| && ShortId(u) == ShortId(s[i])
    ensures CountShortId(s[i := u], ShortId(u)) == 1
    ensures FindByShortId(s[i := u], ShortId(u)) == Some(i)
  {
    var t := s[i := u];
    assert forall j :: 0 <= j < |t| && j != i ==> ShortId(t[j]) != ShortId(u);
    CountOne(t, ShortId(u), i);
  }

  /** Creating or reconciling never introduces a second record with a
      short id already stored, provided a generated identifier's short id
      is new. */
  lemma CreateOrUpdateKeepsShortIdsUnique(s: Store, fields: map<string, Value>, uniqueIdentifier: Option<string>,
                                          photo: Option<NewPhoto>, newId: string, generatedUid: string,
                                          actor: Actor, now: Instant)
    requires ValidInstant(now)
    requires UniqueShortIds(s)
    requires uniqueIdentifier.None? ==> FindByShortId(s, ShortIdOf(generatedUid)).None?
    ensures UniqueShortIds(CreateOrUpdate(s, fields, uniqueIdentifier, photo, newId, generatedUid, actor, now).0)
  {
    var r := CreateOrUpdate(s, fields, uniqueIdentifier, photo, newId, generatedUid, actor, now);
    forall j | 0 <= j < |r.0| ensures ShortId(r.0[j]) == ShortId(if j < |s| then s[j] else r.0[j]) {
    }
  }

  /** A newly created record is found both by its id and by its short id,
      and both lookups give the same record. */
  lemma CreatedRecordFound(s: Store, fields: map<string, Value>, uniqueIdentifier: Option<string>,
                           photo: Option<NewPhoto>, newId: string, generatedUid: string,
                           actor: Actor, now: Instant)
    requires ValidInstant(now)
    requires FindById(s, newId).None?
    requires FindByShortId(s, ShortIdOf(uniqueIdentifier.GetOr(generatedUid))).None?
    ensures var r := CreateOrUpdate(s, fields, uniqueIdentifier, photo, newId, generatedUid, actor, now);
      && |r.0| == |s| + 1
      && GetById(r.0, newId).Some?
      && GetById(r.0, newId) == GetByShortId(r.0, ShortIdOf(uniqueIdentifier.GetOr(generatedUid)))
      && GetById(r.0, newId).value.fields == fields
  {
    var uid := uniqueIdentifier.GetOr(generatedUid);
    var r := CreateOrUpdate(s, fields, uniqueIdentifier, photo, newId, generatedUid, actor, now);
    var c := Create(newId, uid, fields, photo, actor, now);
    assert r.0 == s + [c];
    assert FindById(r.0, newId) == Some(|s|) by {
      FindByIdAppend(s, c, newId);
    }
    assert FindByShortId(r.0, ShortIdOf(uid)) == Some(|s|) by {
      FindByShortIdAppend(s, c, ShortIdOf(uid));
    }
  }

  lemma {:induction false} FindByIdAppend(s: Store, c: Child, id: string)
    requires FindById(s, id).None? && c.id == id
    ensures FindById(s + [c], id) == Some(|s|)
  {
    if |s| > 0 {
      assert (s + [c])[1..] == s[1..] + [c];
      FindByIdAppend(s[1..], c, id);
    }
  }

  lemma {:induction false} FindByShortIdAppend(s: Store, c: Child, shortId: string)
    requires FindByShortId(s, shortId).None? && ShortId(c) == shortId
    ensures FindByShortId(s + [c], shortId) == Some(|s|)
  {
    if |s| > 0 {
      assert (s + [c])[1..] == s[1..] + [c];
      FindByShortIdAppend(s[1..], c, shortId);
    }
  }

  /** An update request for an id. A stored record is updated in place; an
      unknown id creates a record under that very id, with a generated
      unique identifier. Either way the record is then found by the id. */
  function PutUpdate(s: Store, id: string, fields: map<string, Value>, photo: Option<NewPhoto>,
                     generatedUid: string, actor: Actor, now: Instant): (r: Store)
    requires ValidInstant(now)
    ensures GetById(r, id).Some?
    ensures FindById(s, id).Some? ==>
      && |r| == |s|
      && r == s[FindById(s, id).value := Update(s[FindById(s, id).value], fields, photo, actor, now)]
    ensures FindById(s, id).None? ==>
      && r == s + [Create(id, generatedUid, fields, photo, actor, now)]
      && GetById(r, id).value.uniqueIdentifier == generatedUid
  {
    match FindById(s, id)
    case Some(i) =>
      var r := s[i := Update(s[i], fields, photo, actor, now)];
      assert r[i].id == id;
      r
    case None =>
      var c := Create(id, generatedUid, fields, photo, actor, now);
      FindByIdAppend(s, c, id);
      s + [c]
  }

  /** An update request never gives a second record the id of another. */
  lemma PutUpdateKeepsIdsUnique(s: Store, id: string, fields: map<string, Value>, photo: Option<NewPhoto>,
                                generatedUid: string, actor: Actor, now: Instant)
    requires ValidInstant(now)
    requires UniqueIds(s)
    ensures UniqueIds(PutUpdate(s, id, fields, photo, generatedUid, actor, now))
  {
    var r := PutUpdate(s, id, fields, photo, generatedUid, actor, now);
    forall j | 0 <= j < |s| ensures r[j].id == s[j].id {
    }
  }
}

=== FILE: timestamps.dfy ===
/** The clock's two textual formats: the UTC stamp of a history entry,
    `YYYY-MM-DD HH:MM:SSUTC`, and the local-time suffix of a photo
    attachment key, `YYYY-MM-DDTHHMMSS`, both zero-padded. Each comes with
    the parser that reads it back. */
module Timestamps {
  import opened Wrappers

  /** A calendar time as the clock reports it (already in the zone the
      format wants: UTC for history, local for photo keys). */
  datatype DateTime = DateTime(year: nat, month: nat, day: nat, hour: nat, minute: nat, second: nat)

  /** A time the four-digit-year formats can show (60 admits a leap second). */
  predicate Valid(t: DateTime) {
    && t.year <= 9999
    && 1 <= t.month <= 12
    && 1 <= t.day <= 31
    && t.hour <= 23
    && t.minute <= 59
    && t.second <= 60
  }

  function Pow10(n: nat): (p: nat)
    ensures p >= 1
  {
    if n == 0 then 1 else 10 * Pow10(n - 1)
  }

  predicate IsDigit(c: char) {
    '0' <= c <= '9'
  }

  predicate AllDigits(s: string) {
    forall i :: 0 <= i < |s| ==> IsDigit(s[i])
  }

  function DigitChar(d: nat): (c: char)
    requires d < 10
    ensures IsDigit(c)
  {
    ('0' as int + d) as char
  }

  function DigitValue(c: char): (d: nat)
    requires IsDigit(c)
    ensures d < 10 && DigitChar(d) == c
  {
    c as int - '0' as int
  }

  /** `n` written in exactly `width` decimal digits, zero-padded on the left. */
  function Padded(n: nat, width: nat): (s: string)
    requires n < Pow10(width)
    ensures |s| == width
    ensures AllDigits(s)
  {
    if width == 0 then ""
    else Padded(n / 10, width - 1) + [DigitChar(n % 10)]
  }

  /** `n` in decimal without padding. */
  function Decimal(n: nat): (s: string)
    ensures |s| >= 1
    ensures AllDigits(s)
  {
    if n < 10 then [DigitChar(n)]
    else Decimal(n / 10) + [DigitChar(n % 10)]
  }

  /** The value of a string of decimal digits. */
  function ParseDigits(s: string): (n: nat)
    requires AllDigits(s)
    ensures n < Pow10(|s|)
  {
    if |s| == 0 then 0
    else ParseDigits(s[..|s| - 1]) * 10 + DigitValue(s[|s| - 1])
  }

  lemma {:induction false} ParsePadded(n: nat, width: nat)
    requires n < Pow10(width)
    ensures ParseDigits(Padded(n, width)) == n
  {
    if width > 0 {
      var s := Padded(n, width);
      assert s[..|s| - 1] == Padded(n / 10, width - 1);
      ParsePadded(n / 10, width - 1);
    }
  }

  lemma {:induction false} PadParsed(s: string)
    requires AllDigits(s)
    ensures Padded(ParseDigits(s), |s|) == s
  {
    if |s| > 0 {
      var init := s[..|s| - 1];
      assert AllDigits(init) by {
        forall i | 0 <= i < |init| ensures IsDigit(init[i]) {
          assert init[i] == s[i];
        }
      }
      PadParsed(init);
      var n := ParseDigits(s);
      assert n / 10 == ParseDigits(init);
      assert n % 10 == DigitValue(s[|s| - 1]);
      assert s == init + [s[|s| - 1]];
    }
  }

  lemma {:induction false} ParseDecimal(n: nat)
    ensures ParseDigits(Decimal(n)) == n
  {
    if n >= 10 {
      var s := Decimal(n);
      assert s[..|s| - 1] == Decimal(n / 10);
      ParseDecimal(n / 10);
    }
  }

  /** The history stamp, e.g. "2010-01-20 17:10:32UTC". */
  function UtcText(t: DateTime): (s: string)
    requires Valid(t)
    ensures |s| == 22
  {
    Padded(t.year, 4) + "-" + Padded(t.month, 2) + "-" + Padded(t.day, 2) + " "
      + Padded(t.hour, 2) + ":" + Padded(t.minute, 2) + ":" + Padded(t.second, 2) + "UTC"
  }

  /** The photo-key stamp, e.g. "2010-01-17T140532". */
  function StampText(t: DateTime): (s: string)
    requires Valid(t)
    ensures |s| == 17
  {
    Padded(t.year, 4) + "-" + Padded(t.month, 2) + "-" + Padded(t.day, 2) + "T"
      + Padded(t.hour, 2) + Padded(t.minute, 2) + Padded(t.second, 2)
  }

  /** True when `s[i..i + w]` lies inside `s` and is all digits. */
  predicate DigitsAt(s: string, i: nat, w: nat) {
    i + w <= |s| && AllDigits(s[i..i + w])
  }

  function NumberAt(s: string, i: nat, w: nat): nat
    requires DigitsAt(s, i, w)
  {
    ParseDigits(s[i..i + w])
  }

  /** Reads a history stamp back; None for any text UtcText cannot produce. */
  function ParseUtcText(s: string): (r: Option<DateTime>)
    ensures r.Some? ==> Valid(r.value)
  {
    if && |s| == 22
       && s[4] == '-' && s[7] == '-' && s[10] == ' ' && s[13] == ':' && s[16] == ':'
       && s[19..] == "UTC"
       && DigitsAt(s, 0, 4) && DigitsAt(s, 5, 2) && DigitsAt(s, 8, 2)
       && DigitsAt(s, 11, 2) && DigitsAt(s, 14, 2) && DigitsAt(s, 17, 2)
    then
      var t := DateTime(NumberAt(s, 0, 4), NumberAt(s, 5, 2), NumberAt(s, 8, 2),
                        NumberAt(s, 11, 2), NumberAt(s, 14, 2), NumberAt(s, 17, 2));
      if Valid(t) then Some(t) else None
    else None
  }

  /** Reads a photo-key stamp back; None for any text StampText cannot produce. */
  function ParseStamp(s: string): (r: Option<DateTime>)
    ensures r.Some? ==> Valid(r.value)
  {
    if && |s| == 17
       && s[4] == '-' && s[7] == '-' && s[10] == 'T'
       && DigitsAt(s, 0, 4) && DigitsAt(s, 5, 2) && DigitsAt(s, 8, 2)
       && DigitsAt(s, 11, 2) && DigitsAt(s, 13, 2) && DigitsAt(s, 15, 2)
    then
      var t := DateTime(NumberAt(s, 0, 4), NumberAt(s, 5, 2), NumberAt(s, 8, 2),
                        NumberAt(s, 11, 2), NumberAt(s, 13, 2), NumberAt(s, 15, 2));
      if Valid(t) then Some(t) else None
    else None
  }

  /** The history stamp reads back as the time it was written from. */
  lemma UtcTextRoundTrip(t: DateTime)
    requires Valid(t)
    ensures ParseUtcText(UtcText(t)) == Some(t)
  {
    var s := UtcText(t);
    var date := Padded(t.year, 4) + "-" + Padded(t.month, 2) + "-" + Padded(t.day, 2);
    var head := date + " " + Padded(t.hour, 2) + ":" + Padded(t.minute, 2) + ":";
    assert s == head + Padded(t.second, 2) + "UTC";
    assert s[..10] == date;
    assert s[0..4] == Padded(t.year, 4);
    assert s[5..7] == Padded(t.month, 2);
    assert s[8..10] == Padded(t.day, 2);
    assert s[11..13] == Padded(t.hour, 2);
    assert s[14..16] == Padded(t.minute, 2);
    assert s[17..19] == Padded(t.second, 2);
    assert s[19..] == "UTC";
    ParsePadded(t.year, 4);
    ParsePadded(t.month, 2);
    ParsePadded(t.day, 2);
    ParsePadded(t.hour, 2);
    ParsePadded(t.minute, 2);
    ParsePadded(t.second, 2);
  }

  /** Only history stamps parse, so the stored text and the time determine
      each other. */
  lemma ParseUtcTextOnlyStamps(s: string)
    requires ParseUtcText(s).Some?
    ensures UtcText(ParseUtcText(s).value) == s
  {
    var t := ParseUtcText(s).value;
    PadParsed(s[0..4]);
    PadParsed(s[5..7]);
    PadParsed(s[8..10]);
    PadParsed(s[11..13]);
    PadParsed(s[14..16]);
    PadParsed(s[17..19]);
    assert s[0..5] == s[0..4] + "-";
    assert s[0..7] == s[0..5] + s[5..7];
    assert s[0..8] == s[0..7] + "-";
    assert s[0..10] == s[0..8] + s[8..10];
    assert s[0..11] == s[0..10] + " ";
    assert s[0..13] == s[0..11] + s[11..13];
    assert s[0..14] == s[0..13] + ":";
    assert s[0..16] == s[0..14] + s[14..16];
    assert s[0..17] == s[0..16] + ":";
    assert s[0..19] == s[0..17] + s[17..19];
    assert s == s[0..19] + s[19..];
  }

  lemma StampTextRoundTrip(t: DateTime)
    requires Valid(t)
    ensures ParseStamp(StampText(t)) == Some(t)
  {
    var s := StampText(t);
    var date := Padded(t.year, 4) + "-" + Padded(t.month, 2) + "-" + Padded(t.day, 2);
    var head := date + "T" + Padded(t.hour, 2) + Padded(t.minute, 2);
    assert s == head + Padded(t.second, 2);
    assert s[..10] == date;
    assert s[0..4] == Padded(t.year, 4);
    assert s[5..7] == Padded(t.month, 2);
    assert s[8..10] == Padded(t.day, 2);
    assert s[11..13] == Padded(t.hour, 2);
    assert s[13..15] == Padded(t.minute, 2);
    assert s[15..17] == Padded(t.second, 2);
    ParsePadded(t.year, 4);
    ParsePadded(t.month, 2);
    ParsePadded(t.day, 2);
    ParsePadded(t.hour, 2);
    ParsePadded(t.minute, 2);
    ParsePadded(t.second, 2);
  }

  /** The padded fields of the flagging test's clock. */
  lemma UtcFieldsExample()
    ensures Padded(2010, 4) == "2010" && Padded(1, 2) == "01" && Padded(20, 2) == "20"
    ensures Padded(17, 2) == "17" && Padded(10, 2) == "10" && Padded(32, 2) == "32"
  {
    assert Padded(2, 1) == "2";
    assert Padded(201, 3) == "201";
    assert Padded(0, 1) == "0";
    assert Padded(1, 1) == "1";
    assert Padded(3, 1) == "3";
  }

  /** The history stamp of the flagging test's clock. */
  lemma UtcTextExample()
    ensures UtcText(DateTime(2010, 1, 20, 17, 10, 32)) == "2010-01-20 17:10:32UTC"
  {
    UtcFieldsExample();
    var s := UtcText(DateTime(2010, 1, 20, 17, 10, 32));
    assert s == "2010" + "-" + "01" + "-" + "20" + " " + "17" + ":" + "10" + ":" + "32" + "UTC";
    assert "2010" + "-" + "01" + "-" + "20" == "2010-01-20";
    assert "2010-01-20" + " " + "17" + ":" + "10" == "2010-01-20 17:10";
    assert "2010-01-20 17:10" + ":" + "32" + "UTC" == "2010-01-20 17:10:32UTC";
  }

  /** The photo-key stamp of the photo-update test's clock. */
  lemma StampTextExample()
    ensures StampText(DateTime(2010, 1, 17, 14, 5, 32)) == "2010-01-17T140532"
  {
    UtcFieldsExample();
    assert Padded(1, 1) == "1" && Padded(0, 1) == "0";
    assert Padded(14, 2) == "14" && Padded(5, 2) == "05";
    var s := StampText(DateTime(2010, 1, 17, 14, 5, 32));
    assert s == "2010" + "-" + "01" + "-" + "17" + "T" + "14" + "05" + "32";
    assert "2010" + "-" + "01" + "-" + "17" == "2010-01-17";
    assert "2010-01-17" + "T" + "14" + "05" + "32" == "2010-01-17T140532";
  }
}

=== FILE: view_options.dfy ===
/** The children listing's view-options builder: from the caller's role,
    the optional `status`, `order_by` and `page` request parameters to the
    arguments of `Child.fetch_paginated(options, page, per_page)`. The
    options name a CouchDB view and an inclusive key range on it. */
module ViewOptions {
  import opened Wrappers
  import opened Collation

  /** An administrator sees every record; a field worker only the records
      they created. */
  datatype Role = Admin | FieldWorker(userName: string)

  /** The `order_by` parameter once recognised. */
  datatype SortOrder = DefaultOrder | ByName | ByCreatedAt

  /** The CouchDB views the listing queries. */
  datatype ViewName =
    | ByAllViewName
    | ByAllViewWithCreatedByCreatedAt
    | ByAllViewWithCreatedByName

  /** The options hash: `descending` is absent unless the scan runs backwards. */
  datatype Options = Options(viewName: ViewName, startkey: Key, endkey: Key, descending: Option<bool>)

  /** The arguments of one `fetch_paginated` call. */
  datatype FetchCall = FetchCall(options: Options, page: Page, perPage: int)

  datatype PlanError = UnsupportedOrder(orderBy: string)

  /** Pages are numbered from 1. */
  type Page = p: int | p >= 1 witness 1

  const DefaultStatus: string := "all"
  const FirstPage: Page := 1
  const PerPage: int := 20

  /** The view's name as the Ruby symbol spells it. */
  function ViewSymbol(v: ViewName): string {
    match v
    case ByAllViewName => "by_all_view_name"
    case ByAllViewWithCreatedByCreatedAt => "by_all_view_with_created_by_created_at"
    case ByAllViewWithCreatedByName => "by_all_view_with_created_by_name"
  }

  /** Recognises `order_by`; an order with no view behind it is a
      configuration error, not a silent fallback. */
  function ParseOrder(orderBy: Option<string>): (r: Result<SortOrder, PlanError>)
    ensures r == Success(DefaultOrder) <==> orderBy == None
    ensures r == Success(ByName) <==> orderBy == Some("name")
    ensures r == Success(ByCreatedAt) <==> orderBy == Some("created_at")
    ensures r.Failure? ==> orderBy.Some? && r.error == UnsupportedOrder(orderBy.value)
  {
    match orderBy
    case None => Success(DefaultOrder)
    case Some(o) =>
      if o == "name" then Success(ByName)
      else if o == "created_at" then Success(ByCreatedAt)
      else Failure(UnsupportedOrder(o))
  }

  /** The key prefix every visible record's view key starts with: the
      status, and for a field worker also their own user name. */
  function ScopeKey(role: Role, status: string): (k: Key)
    ensures AllStrings(k)
    ensures |k| == (if role.Admin? then 1 else 2)
    ensures k[0] == Str(status)
    ensures role.FieldWorker? ==> k[1] == Str(role.userName)
  {
    match role
    case Admin => [Str(status)]
    case FieldWorker(u) => [Str(status), Str(u)]
  }

  function SelectView(role: Role, order: SortOrder): ViewName {
    match role
    case Admin => ByAllViewName
    case FieldWorker(_) =>
      if order == ByName then ByAllViewWithCreatedByName else ByAllViewWithCreatedByCreatedAt
  }

  /** The options for one listing. The created-at order scans backwards:
      its keys are swapped and `descending` is set. For a field worker this
      lists their newest records first; an administrator keeps the name
      view, which the swap reads in reverse key order. */
  function BuildOptions(role: Role, status: string, order: SortOrder): (o: Options)
    ensures role.Admin? ==> o.viewName == ByAllViewName
    ensures role.FieldWorker? ==>
      o.viewName == (if order == ByName then ByAllViewWithCreatedByName else ByAllViewWithCreatedByCreatedAt)
    ensures o.descending != Some(false)
    ensures o.descending == Some(true) <==> order == ByCreatedAt
    ensures |o.startkey| > |o.endkey| <==> order == ByCreatedAt
    ensures order != ByCreatedAt ==>
      o.startkey == ScopeKey(role, status) && o.endkey == ScopeKey(role, status) + [OpenHigh]
    ensures order == ByCreatedAt ==>
      o.startkey == ScopeKey(role, status) + [OpenHigh] && o.endkey == ScopeKey(role, status)
  {
    var keys := ScopeKey(role, status);
    if order == ByCreatedAt then
      Options(SelectView(role, order), keys + [OpenHigh], keys, Some(true))
    else
      Options(SelectView(role, order), keys, keys + [OpenHigh], None)
  }

  /** The whole listing request: `status` defaults to "all", `page` to 1,
      and the page size is the fixed 20. */
  function Listing(role: Role, status: Option<string>, orderBy: Option<string>, page: Option<Page>)
    : (r: Result<FetchCall, PlanError>)
    ensures r.Success? <==> ParseOrder(orderBy).Success?
    ensures r.Failure? ==> r == Failure(ParseOrder(orderBy).error)
    ensures r.Success? ==>
      && r.value.options == BuildOptions(role, status.GetOr(DefaultStatus), ParseOrder(orderBy).value)
      && r.value.page == page.GetOr(FirstPage)
      && r.value.perPage == PerPage
  {
    match ParseOrder(orderBy)
    case Failure(e) => Failure(e)
    case Success(order) =>
      Success(FetchCall(BuildOptions(role, status.GetOr(DefaultStatus), order), page.GetOr(FirstPage), PerPage))
  }

  /** The view rows a range scan returns: between the two keys inclusive,
      read from the end key upwards when the scan is descending. */
  predicate Selects(o: Options, k: Key) {
    if o.descending == Some(true) then KeyLe(o.endkey, k) && KeyLe(k, o.startkey)
    else KeyLe(o.startkey, k) && KeyLe(k, o.endkey)
  }

  /** Every order returns exactly the records in the caller's scope: the
      rows whose key starts with the status (and, for a field worker, their
      user name). In particular the swapped keys of the created-at order
      select the same rows as the default order, only backwards. */
  lemma ListingSelectsScope(role: Role, status: string, order: SortOrder, k: Key)
    requires AllStrings(k)
    ensures Selects(BuildOptions(role, status, order), k) <==> IsPrefix(ScopeKey(role, status), k)
  {
    var p := ScopeKey(role, status);
    PrefixRange(p, k);
  }

  /** Any order selects the same records as any other. */
  lemma OrdersAgreeOnRows(role: Role, status: string, o1: SortOrder, o2: SortOrder, k: Key)
    requires AllStrings(k)
    ensures Selects(BuildOptions(role, status, o1), k) <==> Selects(BuildOptions(role, status, o2), k)
  {
    ListingSelectsScope(role, status, o1, k);
    ListingSelectsScope(role, status, o2, k);
  }

  /** An administrator listing status `s` without an order or page. */
  lemma AdminListing(s: string)
    ensures Listing(Admin, Some(s), None, None)
      == Success(FetchCall(Options(ByAllViewName, [Str(s)], [Str(s), OpenHigh], None), 1, 20))
  {
    assert [Str(s)] + [OpenHigh] == [Str(s), OpenHigh];
  }

  /** Without `status` the listing is the "all" listing, for every role. */
  lemma StatusDefaultsToAll(role: Role, orderBy: Option<string>, page: Option<Page>)
    ensures Listing(role, None, orderBy, page) == Listing(role, Some("all"), orderBy, page)
  {
  }

  /** A field worker's default listing of status `s`. */
  lemma FieldWorkerDefaultListing(u: string, s: string)
    ensures Listing(FieldWorker(u), Some(s), None, None)
      == Success(FetchCall(
           Options(ByAllViewWithCreatedByCreatedAt, [Str(s), Str(u)], [Str(s), Str(u), OpenHigh], None), 1, 20))
  {
    assert [Str(s), Str(u)] + [OpenHigh] == [Str(s), Str(u), OpenHigh];
  }

  /** A field worker's listing ordered by name uses the name view and the
      default order's keys. */
  lemma FieldWorkerNameListing(u: string, s: string, page: Option<Page>)
    ensures Listing(FieldWorker(u), Some(s), Some("name"), page)
      == Success(FetchCall(
           Options(ByAllViewWithCreatedByName, [Str(s), Str(u)], [Str(s), Str(u), OpenHigh], None),
           page.GetOr(1), 20))
  {
    assert [Str(s), Str(u)] + [OpenHigh] == [Str(s), Str(u), OpenHigh];
  }

  /** A field worker's listing ordered by creation time, on page `p`. */
  lemma FieldWorkerCreatedAtListing(u: string, s: string, p: Page)
    ensures Listing(FieldWorker(u), Some(s), Some("created_at"), Some(p))
      == Success(FetchCall(
           Options(ByAllViewWithCreatedByCreatedAt, [Str(s), Str(u), OpenHigh], [Str(s), Str(u)], Some(true)),
           p, 20))
  {
    assert [Str(s), Str(u)] + [OpenHigh] == [Str(s), Str(u), OpenHigh];
  }

  /** The rows of the listing test table, for user "fakefieldworker". */
  lemma ListingTestTable()
    ensures Listing(Admin, None, None, None)
      == Success(FetchCall(Options(ByAllViewName, [Str("all")], [Str("all"), OpenHigh], None), 1, 20))
    ensures Listing(FieldWorker("fakefieldworker"), None, None, None)
      == Success(FetchCall(Options(ByAllViewWithCreatedByCreatedAt,
           [Str("all"), Str("fakefieldworker")], [Str("all"), Str("fakefieldworker"), OpenHigh], None), 1, 20))
    ensures Listing(FieldWorker("fakefieldworker"), None, Some("name"), None)
      == Success(FetchCall(Options(ByAllViewWithCreatedByName,
           [Str("all"), Str("fakefieldworker")], [Str("all"), Str("fakefieldworker"), OpenHigh], None), 1, 20))
    ensures Listing(FieldWorker("fakefieldworker"), None, Some("created_at"), Some(2))
      == Success(FetchCall(Options(ByAllViewWithCreatedByCreatedAt,
           [Str("all"), Str("fakefieldworker"), OpenHigh], [Str("all"), Str("fakefieldworker")], Some(true)), 2, 20))
    ensures Listing(FieldWorker("fakefieldworker"), Some("reunited"), None, None)
      == Success(FetchCall(Options(ByAllViewWithCreatedByCreatedAt,
           [Str("reunited"), Str("fakefieldworker")], [Str("reunited"), Str("fakefieldworker"), OpenHigh], None), 1, 20))
    ensures ViewSymbol(Listing(FieldWorker("fakefieldworker"), None, Some("name"), None).value.options.viewName)
      == "by_all_view_with_created_by_name"
  {
    AdminListing("all");
    FieldWorkerDefaultListing("fakefieldworker", "all");
    FieldWorkerNameListing("fakefieldworker", "all", None);
    FieldWorkerCreatedAtListing("fakefieldworker", "all", 2);
    FieldWorkerDefaultListing("fakefieldworker", "reunited");
  }
}

=== FILE: wrappers.dfy ===
/** Optional values and results with an error case, used wherever the
    system answers "absent" or refuses a request instead of failing. */
module Wrappers {

  datatype Option<+T> = None | Some(value: T) {

    /** Returns the value held in Some, or the default when absent. */
    function GetOr(default: T): T {
      match this
      case Some(v) => v
      case None => default
    }
  }

  datatype Result<+R, +E> = Success(value: R) | Failure(error: E)
}
